=== FILE: README.md ===
# Robotics GUI: profile editor and servo table, modelled in Dafny

The robotics GUI lets an operator build two things in a browser page.

- **Control profiles.** Each controller node, such as a joystick axis, is bound to a behaviour for the servos of a robot:
  - **Linear** has a servo group and an invert flag.
  - **Preset** has a map of selected items, where an item is a servo or a group.
- **Robots.** A robot is described by a table of servos. Each servo row has:
  - an id
  - a model
  - a protocol (1 or 2)
  - a mode (Wheel or Joint)
  - a minimum and a maximum position

This project models the state that the page's event handlers keep. Each handler becomes a pure transition over an explicit, immutable state record.

- `lists.dfy` defines module `Lists`. It has the "push unless already included" de-duplication, which both halves of the program use. It proves that the result has no repeats, has the same elements as the input and keeps first-seen order.
- `groups.dfy` defines module `Groups`, the group index of `src/create/profile/profile.js`. It covers `findGroups` over a robot descriptor, and the servo-plus-group item list a Preset node picks from.
- `profile.dfy` defines module `Profile`, the profile editor state of `src/create/profile/profile.js`. The state has:
  - the map from node name to a partial node record
  - the chosen robot and controller
  - three editor-wide slots: the previous drop-down value, the selected node and the last Preset selection

  The handlers that can stop with an exception return `Done(state)`, or `Threw(state)` when the JavaScript code would stop: `CreatePreset`, `ButtonClick`, `SetGroup`, `SetInvert` and `SelectItem`. `AddNode`, `AddNodes`, `ControllerChange`, `RobotChange` and `CreateLinear` return the new state directly. A record that is missing leads to a TypeError. A robot configuration that cannot be read leads to the failure of `findGroups` or `findRobotConf`. A button click takes a flag saying whether that read succeeds.
- `profile_properties.dfy` defines module `ProfileProperties`. Its lemmas span several handler calls: reselecting, switching mode and back, and successive item selections. It also has two whole sessions.
- `servo_table.dfy` defines module `ServoTable`, the servo table of `App/JS/robot.js`. It covers:
  - row defaults
  - adding, removing and resetting the last row
  - the mode radios and the limit inputs that re-derive the mode
  - the model-selector option list
  - `createRobot`, as a fold into a map keyed by servo id
- `servo_table_properties.dfy` defines module `ServoTableProperties`. It proves that every table reachable through user actions keeps its shape. It also proves that the mode radio agrees with the limits: Wheel exactly when both limits are 0.

The model follows the code as written. These points may surprise a reader of the handlers:

- There is no duplicate-node error. Adding an existing node resets its record to empty.
- Setting a node's group or invert flag never checks the node's mode.
- A node with no record gives no "unknown node" error. The handler stops with a TypeError. Anything it had already assigned stays assigned: `buttonClick` sets the selected node before it fails.
- Choosing Linear for a node not in Linear mode depends only on the previous-mode slot. That slot holds the value of the last click that completed, on any node. When that click chose Linear, the node gets the placeholder `{mode: Linear, group: "choice", invert: Yes}`. Otherwise it gets `{mode: Linear, invert: Yes}` with no group. A completed Preset click followed directly by a Linear click on the same node always gives no group (`SwitchBackToLinearResets`). The Preset case is similar: the reset is `{mode: Preset, items: {}}` or `{mode: Preset, items: {choice: 0}}`.
- A screen setup resets the record before it reads the robot configuration. When the read fails, the reset stays but the previous-mode slot is not updated. Lemma `FailedSetupKeepsPreviousMode` shows the effect on the next click.
- The last-selected Preset item is a single slot shared by all nodes. Lemma `SharedSlotKeepsStaleItem` shows the case it mishandles:
  1. An item is selected for node A.
  2. An item is selected for node B.
  3. A different item is selected for node A.

  Node A now keeps both of its items.

## Model

| member | source | states |
|---|---|---|
| Lists.DedupCorrect | src/create/profile/profile.js:35-40 | Pushing each element unless already included keeps every input element exactly once (no duplicates, same membership) and in first-seen order, and never lengthens the sequence |
| Lists.DedupFirst | App/JS/robot.js:36-40 | The first element of a non-empty walk is always pushed, so it heads the de-duplicated result |
| Groups.AllGroupsMembers | src/create/profile/profile.js:32-42 | A group occurs in the walk over all servos' group lists exactly when some servo lists it |
| Groups.FindGroups | src/create/profile/profile.js:28-45 | The group index has no duplicates, contains exactly the groups met walking every servo's group list, and orders them by first occurrence in that walk; it equals the de-duplicated walk |
| Groups.PushNew | src/create/profile/profile.js:35-40 | Pushing one servo's groups onto the index, each unless already included, continues the de-duplicated walk over that servo's groups |
| Groups.GroupIndexMembers | src/create/profile/profile.js:28-45 | A group is in the group index iff some servo of the robot lists it |
| Groups.PresetChoices | src/create/profile/profile.js:160-167 | The Preset item list holds every servo name in enumeration order, plus the de-duplicated groups |
| Profile.AddNode | src/create/profile/profile.js:270-294 | The node's record becomes empty whether or not it existed; every other node and every other field is unchanged |
| Profile.AddNodes | src/create/profile/profile.js:308-312 | After adding a list of nodes, each listed node has an empty record, and each node not listed keeps its record (or absence of one) |
| Profile.ControllerChange | src/create/profile/profile.js:303-315 | Records the controller. The node set grows by exactly the listed nodes. Listed nodes are emptied and others are kept. Robot, previous mode, selection and last Preset item are untouched |
| Profile.RobotChange | src/create/profile/profile.js:321-325 | Only the chosen robot changes |
| Profile.CreateLinear | src/create/profile/profile.js:97-106 | The selected node gets a record. A record already in Linear mode is kept. Any other record, or a missing one, becomes {Linear, invert Yes} with no group. Other nodes are unchanged |
| Profile.CreatePreset | src/create/profile/profile.js:152-157 | A missing record stops the handler with nothing changed. A record in Preset mode is kept. Any other record becomes {Preset, items {}}. Other nodes are unchanged |
| Profile.ButtonClick | src/create/profile/profile.js:217-262 | Always selects the clicked node. Completes its state changes iff the node has a record and, when the click sets up a mode screen, the robot configuration loads. On success the previous mode becomes the value; on failure it and every other field except the selected node and that node's record are unchanged. Changes no other node's record. A value other than Linear/Preset changes no record. For Linear/Preset, a record already in that mode is kept; otherwise it is reset to the setup default when the previous value differs, or to the placeholder record when it is the same |
| Profile.SetGroup | src/create/profile/profile.js:114-116 | Succeeds iff the selected node has a record. Sets only its group, with no mode check, and leaves all other nodes and fields unchanged; on failure nothing changes |
| Profile.SetInvert | src/create/profile/profile.js:121-124 | Succeeds iff the selected node has a record. Sets only its invert flag, with no mode check, and leaves all other nodes and fields unchanged; on failure nothing changes |
| Profile.SelectItem | src/create/profile/profile.js:170-184 | Succeeds iff the selected node has an items map. The item keys lose the last selected item when it was selected for this node, then gain the new item mapped to null. Other entries and fields are kept. The slot becomes (node, item). Other nodes are unchanged |
| ProfileProperties.ReselectIsIdempotent | src/create/profile/profile.js:228-252 | Clicking a node twice with the same value changes nothing the second time, whether or not the robot configuration loads then; the first click succeeds when it loads |
| ProfileProperties.SwitchBackToLinearResets | src/create/profile/profile.js:231-250 | Switching any node to Preset and back to Linear ends on {Linear, invert Yes} with no group, discarding the earlier group, even when the second setup then fails to read the robot configuration |
| ProfileProperties.FailedSetupKeepsPreviousMode | src/create/profile/profile.js:97-109 | A Linear click whose setup cannot read the robot configuration throws after resetting the record and leaves the previous mode unchanged, so the next Linear click on another non-Linear node writes the Linear default, where after a successful click it would write the placeholder record |
| ProfileProperties.SecondSelectionRetractsFirst | src/create/profile/profile.js:171-183 | Selecting a then b for the same node leaves the first selection's keys minus a plus b, with b null, and a gone when it differs from b |
| ProfileProperties.TwoSelectionsFromEmpty | src/create/profile/profile.js:171-183 | Starting from an empty items map, selecting a then b leaves exactly {b: null} |
| ProfileProperties.SharedSlotKeepsStaleItem | src/create/profile/profile.js:8-11 | The single editor-wide last-selection slot fails to retract A's earlier item when B was edited in between, so A keeps both items |
| ProfileProperties.EditingSession | src/create/profile/profile.js:217-262 | The session add, Linear, group "legs", Preset, item "servo3", Preset gives the records {Linear, Yes}, then {Linear, Yes, legs}, then {Preset, {}}, then {servo3: null}. The last reselection changes nothing |
| ServoTable.Stem | App/JS/robot.js:44-45 | The shown name is a prefix of the file name, contains no '.', and stops exactly at the first '.' when there is one |
| ServoTable.ModelOptions | App/JS/robot.js:36-48 | Option k is the stem of the k-th distinct file name in listing order, so there are as many options as distinct names and never more than files. Every file's stem is offered, and every option is the stem of some file |
| ServoTable.DefaultModel | App/JS/robot.js:36-48 | A new selector starts on the stem of the first file listed, or on the empty string when the listing is empty |
| ServoTable.DefaultRow | App/JS/robot.js:87-101 | A new row has id equal to its index, the first model option, protocol 1, Joint, min 0 and max 1024 |
| ServoTable.InitialTable | App/JS/robot.js:215 | The page starts with the header and one default row at index 1, and the table invariants hold |
| ServoTable.AddRow | App/JS/robot.js:132-145 | Appends one row at index equal to the previous row count, with the default fields, and keeps earlier rows and the invariants |
| ServoTable.RemoveLastRow | App/JS/robot.js:168-173 | Removes exactly the last row iff the count exceeds the minimum, and otherwise changes nothing. Never goes below a minimum it started at or above, and keeps the invariants |
| ServoTable.ResetLastRow | App/JS/robot.js:178-184 | With 2 or more rows, the count is kept, earlier rows are unchanged and the last row is restored to its defaults at the same index. Otherwise nothing changes |
| ServoTable.ChooseMode | App/JS/robot.js:147-153 | Choosing a mode not already checked sets it, with min 0 and max 0 for Wheel or 0 and 1024 for Joint. Re-choosing the checked mode changes nothing. Nothing else in the table changes |
| ServoTable.EditMin | App/JS/robot.js:118-127 | Sets only the row's minimum and re-derives its mode: Wheel iff both limits are 0 |
| ServoTable.EditMax | App/JS/robot.js:155-161 | Sets only the row's maximum and re-derives its mode: Wheel iff both limits are 0 |
| ServoTable.Setting | App/JS/robot.js:196-209 | Protocol is 2 iff the second protocol radio is checked, and 1 otherwise. Wheel mode iff Wheel is checked. Model, id and limits are copied |
| ServoTable.RobotOfKeys | App/JS/robot.js:193-202 | The robot has a servo for exactly the ids of the rows visited |
| ServoTable.RobotOfLastWins | App/JS/robot.js:193-210 | For rows sharing an id, the robot keeps the setting of the last one |
| ServoTable.CreateRobot | App/JS/robot.js:190-213 | The robot's ids are exactly those of the rows below the header, and each id maps to the setting of the last row carrying it |
| ServoTableProperties.SessionKeepsInvariants | App/JS/robot.js:109-184 | Any sequence of add, remove, reset, mode-choice and limit edits keeps servo rows below the header and Wheel checked exactly at zero limits |
| ServoTableProperties.WheelExactlyAtZeroLimits | App/JS/robot.js:207-209 | In any table the page can reach, a servo is put in wheel mode exactly when both of its row's limits are 0 |
| ServoTableProperties.RemoveUndoesAdd | App/JS/robot.js:168-173 | Removing the last row right after adding one restores the table, when it had at least the minimum number of rows |
| ServoTableProperties.RemovalsKeepFloor | App/JS/robot.js:168-173 | Repeated removals with a minimum leave max(count - removals, minimum) rows |

## Left out

- Page construction and presentation are not modelled. This covers `createInlineText`, `clearChoice`, the option elements of `populateSelect`, `createRange`/`createRadios`/`createModel` markup, and the `selected` class toggling in `buttonClick`. They only draw the page.
- Profile.ButtonClick: the screen currently shown is not part of the state, so the failures of `loadLinear` and `loadPreset` are not reported. After a screen setup has cleared the screen and then failed to read the robot configuration, a click that repeats the previous value skips the setup. `loadLinear` then dereferences a missing invert radio or group selector, and `loadPreset` a missing item selector when the record has items. The source stops with a TypeError there. The model returns `Done`, with the same state the source leaves, because the previous mode already equals the value. So `Done` and the "succeeds" in the contract and in `ReselectIsIdempotent` mean that the state transitions completed, not that the screen was drawn.
- Profile.ControllerChange: a controller file that cannot be read or parsed is not modelled as a failure. The source records the controller and then throws before adding any node. The resulting state is `ControllerChange(s, controller, [])`, but the exception is not reported. At page load, the same exception would also keep `robotChange` from running.
- Reading files is not modelled: `readConfSync`, `readConfDirSync`, `fs.readdirSync` and `JSON.parse`. Robot descriptors, controller node lists and directory listings are parameters instead, as is whether a button click's read of the robot configuration succeeds. A descriptor lists servos in the order the parsed object enumerates its keys.
- The `lib/html` helpers and the `Dynamixel` and `Robot` classes are outside this model. `createRobot` produces plain `ServoSetting` records, keyed by id.
- Event wiring is not modelled. Each handler is a transition that takes the selected value as a parameter. This covers parsing the radio id from `event.path`, and the `onchange = controllerChange()` lines that call the handlers once at load.
- The robot and controller are separate fields of the profile state. The source stores them in the same object as the node records, so a node named `robot` or `controller` would collide with them. Names special to JavaScript objects, such as `__proto__`, are also not modelled.
- ServoTable.EditMin: the limits are integers. The source compares the input strings with `== 0`, so an empty input also counts as 0.
- ServoTable.CreateRobot: ids are integers. The source keys the robot by the id input's string, so `1` and `01` would be two servos.
- ServoTable.RemoveLastRow: the minimum row count is a natural number. With a negative minimum and an empty table the source would fail when it removes a row that does not exist.
- Groups.FindGroups: every servo is assumed to have a `groups` array, as a descriptor has no way to omit it. A servo without one makes `findGroups` throw; `Profile.ButtonClick` covers that case through its flag for a failed robot configuration read.
- The `min`/`max` attributes of the number inputs are not invariants. The browser does not enforce them on typed values.
- The table is assumed to start with exactly one header row, as the row indices in `createRobot` presume. The page markup that holds it is not part of this model.
- The user's free edits to a row's id, model selector and protocol radio are not separate operations. `CreateRobot` and the table lemmas hold for any values in those cells.

=== FILE: groups.dfy ===
/** The robot-group index of the profile editor: the groups named by the
    servos of the selected robot, and the item list a Preset node chooses
    from. A robot descriptor is the parsed robot configuration, reduced to
    what the index reads: each servo's name and its `groups` list, in the
    order the configuration object enumerates them. */
module Groups {
  import Lists

  datatype ServoDescriptor = ServoDescriptor(name: string, groups: seq<string>)

  type RobotDescriptor = seq<ServoDescriptor>

  /** Every group list of the robot, concatenated in servo order: the
      sequence of groups the index walks, repeats included. */
  function AllGroups(robot: RobotDescriptor): seq<string>
    decreases |robot|
  {
    if |robot| == 0 then [] else AllGroups(robot[..|robot| - 1]) + robot[|robot| - 1].groups
  }

  /** A group occurs in the walk exactly when some servo lists it. */
  lemma {:induction false} AllGroupsMembers(robot: RobotDescriptor)
    ensures forall g :: g in AllGroups(robot) <==> exists k :: 0 <= k < |robot| && g in robot[k].groups
    decreases |robot|
  {
    if |robot| > 0 {
      var init := robot[..|robot| - 1];
      AllGroupsMembers(init);
      forall g
        ensures g in AllGroups(robot) <==> exists k :: 0 <= k < |robot| && g in robot[k].groups
      {
        if g in AllGroups(robot) && g !in robot[|robot| - 1].groups {
          assert g in AllGroups(init);
          var k :| 0 <= k < |init| && g in init[k].groups;
          assert robot[k] == init[k];
        }
        if exists k :: 0 <= k < |robot| && g in robot[k].groups {
          var k :| 0 <= k < |robot| && g in robot[k].groups;
          if k < |init| {
            assert init[k] == robot[k];
          }
        }
      }
    }
  }

  /** A group is in the de-duplicated walk, the group index, exactly when
      some servo lists it. */
  lemma GroupIndexMembers(robot: RobotDescriptor)
    ensures forall g :: g in Lists.Dedup(AllGroups(robot)) <==> exists k :: 0 <= k < |robot| && g in robot[k].groups
  {
    Lists.DedupCorrect(AllGroups(robot));
    AllGroupsMembers(robot);
  }

  /** The walk over the first `s` + 1 servos extends the walk over the
      first `s` by servo `s`'s groups. */
  lemma AllGroupsPrefix(robot: RobotDescriptor, s: nat)
    requires s < |robot|
    ensures AllGroups(robot[..s + 1]) == AllGroups(robot[..s]) + robot[s].groups
  {
    assert robot[..s + 1][..s] == robot[..s];
  }

  /** Pushes each of `servoGroups` onto `groups` unless already included:
      continues the de-duplicated walk of `seen` over `servoGroups`. */
  method PushNew(groups: seq<string>, servoGroups: seq<string>, ghost seen: seq<string>) returns (r: seq<string>)
    requires groups == Lists.Dedup(seen)
    ensures r == Lists.Dedup(seen + servoGroups)
  {
    r := groups;
    var i := 0;
    assert seen + servoGroups[..i] == seen;
    while i < |servoGroups|
      invariant 0 <= i <= |servoGroups|
      invariant r == Lists.Dedup(seen + servoGroups[..i])
    {
      var group := servoGroups[i];
      Lists.DedupSnoc(seen + servoGroups[..i], group);
      assert seen + servoGroups[..i + 1] == (seen + servoGroups[..i]) + [group];
      if group !in r {
        r := r + [group];
      }
      i := i + 1;
    }
    assert servoGroups[..i] == servoGroups;
  }

  /** The groups of the robot, each once, in the order in which they are
      first met walking the servos and each servo's groups in turn. By
      `GroupIndexMembers`, a group is in the result exactly when some servo
      lists it. */
  method FindGroups(robot: RobotDescriptor) returns (groups: seq<string>)
    ensures Lists.NoDup(groups)
    ensures forall g :: g in groups <==> g in AllGroups(robot)
    ensures forall i, j :: 0 <= i < j < |groups| ==> Lists.Precedes(AllGroups(robot), groups[i], groups[j])
    ensures groups == Lists.Dedup(AllGroups(robot))
  {
    groups := [];
    var s := 0;
    while s < |robot|
      invariant 0 <= s <= |robot|
      invariant groups == Lists.Dedup(AllGroups(robot[..s]))
    {
      AllGroupsPrefix(robot, s);
      groups := PushNew(groups, robot[s].groups, AllGroups(robot[..s]));
      s := s + 1;
    }
    assert robot[..s] == robot;
    Lists.DedupCorrect(AllGroups(robot));
  }

  /** The grouped item list offered to a Preset node. */
  datatype PresetItems = PresetItems(servos: seq<string>, groups: seq<string>)

  /** The Preset item list: every servo name of the robot in order, and its
      de-duplicated groups. */
  method PresetChoices(robot: RobotDescriptor) returns (items: PresetItems)
    ensures |items.servos| == |robot|
    ensures forall k :: 0 <= k < |robot| ==> items.servos[k] == robot[k].name
    ensures items.groups == Lists.Dedup(AllGroups(robot))
  {
    var servos := [];
    var k := 0;
    while k < |robot|
      invariant 0 <= k <= |robot|
      invariant |servos| == k
      invariant forall m :: 0 <= m < k ==> servos[m] == robot[m].name
    {
      servos := servos + [robot[k].name];
      k := k + 1;
    }
    var groups := FindGroups(robot);
    items := PresetItems(servos, groups);
  }
}

=== FILE: lists.dfy ===
/** Sequence helpers shared by both halves of the model: the "push unless
    already included" de-duplication that the robot-group index and the
    servo-model option list both perform, and the predicates that describe
    its result. */
module Lists {

  /** No element occurs twice in `xs`. */
  ghost predicate NoDup(xs: seq<string>) {
    forall i, j :: 0 <= i < j < |xs| ==> xs[i] != xs[j]
  }

  /** `a` occurs in `xs` at some position before the first occurrence of `b`. */
  ghost predicate Precedes(xs: seq<string>, a: string, b: string) {
    exists p :: 0 <= p < |xs| && xs[p] == a && b !in xs[..p]
  }

  /** The elements of `xs`, each kept at its first occurrence: the result of
      walking `xs` left to right and pushing every element the output does
      not yet include. Defined on the last element, as the walk extends. */
  function Dedup(xs: seq<string>): seq<string>
    decreases |xs|
  {
    if |xs| == 0 then []
    else
      var d := Dedup(xs[..|xs| - 1]);
      if xs[|xs| - 1] in d then d else d + [xs[|xs| - 1]]
  }

  /** One step of the walk: pushing `x` unless it is already included. */
  lemma DedupSnoc(xs: seq<string>, x: string)
    ensures Dedup(xs + [x]) == if x in Dedup(xs) then Dedup(xs) else Dedup(xs) + [x]
  {
  }

  /** Appending to a sequence keeps every earlier precedence. */
  lemma PrecedesExtend(xs: seq<string>, x: string, a: string, b: string)
    requires Precedes(xs, a, b)
    ensures Precedes(xs + [x], a, b)
  {
    var p :| 0 <= p < |xs| && xs[p] == a && b !in xs[..p];
    assert (xs + [x])[..p] == xs[..p];
    assert (xs + [x])[p] == a;
  }

  /** A newly appended element comes after everything already present. */
  lemma PrecedesAppended(xs: seq<string>, x: string, a: string)
    requires a in xs && x !in xs
    ensures Precedes(xs + [x], a, x)
  {
    var p :| 0 <= p < |xs| && xs[p] == a;
    assert (xs + [x])[..p] == xs[..p];
    assert (xs + [x])[p] == a;
  }

  /** The de-duplicated walk keeps every element exactly once and in the
      order in which the elements are first seen; it is never longer than
      the walk. */
  lemma {:induction false} DedupCorrect(xs: seq<string>)
    ensures |Dedup(xs)| <= |xs|
    ensures NoDup(Dedup(xs))
    ensures forall x :: x in Dedup(xs) <==> x in xs
    ensures forall i, j :: 0 <= i < j < |Dedup(xs)| ==> Precedes(xs, Dedup(xs)[i], Dedup(xs)[j])
    decreases |xs|
  {
    if |xs| > 0 {
      var init := xs[..|xs| - 1];
      var x := xs[|xs| - 1];
      assert xs == init + [x];
      DedupCorrect(init);
      var d := Dedup(init);
      DedupSnoc(init, x);
      forall i, j | 0 <= i < j < |Dedup(xs)|
        ensures Precedes(xs, Dedup(xs)[i], Dedup(xs)[j])
      {
        if j < |d| {
          PrecedesExtend(init, x, d[i], d[j]);
        } else {
          assert d[i] in d;
          PrecedesAppended(init, x, d[i]);
        }
      }
    }
  }

  /** The first element of a non-empty walk is always pushed, so it heads
      the de-duplicated result. */
  lemma {:induction false} DedupFirst(xs: seq<string>)
    requires |xs| > 0
    ensures |Dedup(xs)| > 0 && Dedup(xs)[0] == xs[0]
    decreases |xs|
  {
    if |xs| > 1 {
      var init := xs[..|xs| - 1];
      DedupFirst(init);
      assert init[0] == xs[0];
    }
  }
}

=== FILE: profile.dfy ===
/** The profile editor's in-memory state and the transitions its event
    handlers perform on it.

    The editor binds controller nodes (joystick axes, buttons) to a
    behaviour: Linear, with a servo group and an invert flag, or Preset,
    with a map of selected items. Records are partial: a freshly added node
    has an empty record, and the handlers add, reset or keep fields
    according to the rules below. The last mode chosen in any node's
    drop-down (`previousMode`), the node whose button was clicked last
    (`selectedNode`) and the last Preset item selected (`prevPreset`) are
    single, editor-wide slots.

    A handler whose code dereferences the record of a node that has none
    stops with a JavaScript TypeError; the model returns `Threw` with the
    state as it stood at that point (assignments made before the failing
    statement persist). */
module Profile {

  datatype Option<T> = None | Some(value: T)

  /** The two behaviour families offered by every node's drop-down. */
  datatype Mode = Linear | Preset

  /** The label the drop-down shows for a mode, and that the handlers
      compare the selected value against. */
  function ModeName(m: Mode): string {
    match m
    case Linear => "Linear"
    case Preset => "Preset"
  }

  /** The mode a drop-down value selects, if any. */
  function ModeOf(value: string): (r: Option<Mode>)
    ensures r.Some? <==> value == "Linear" || value == "Preset"
    ensures r.Some? ==> ModeName(r.value) == value
  {
    if value == "Linear" then Some(Linear)
    else if value == "Preset" then Some(Preset)
    else None
  }

  /** The value of the "Invertable?" radio pair. */
  datatype Invert = Yes | No

  /** A Preset item's value: selected items map to null, and the sentinel
      entry written by a Preset reset maps to the number 0. */
  datatype ItemValue = Null | Int(n: int)

  /** A node's record; every field may be absent. */
  datatype NodeConf = NodeConf(
    mode: Option<Mode>,
    invert: Option<Invert>,
    group: Option<string>,
    items: Option<map<string, ItemValue>>)

  /** The record a node gets when it is added. */
  const Unset := NodeConf(None, None, None, None)

  /** The Linear record written when the Linear screen is set up for a
      node that is not in Linear mode: no group yet. */
  const LinearDefault := NodeConf(Some(Linear), Some(Yes), None, None)

  /** The Linear record written when Linear is reselected for a node that
      is not in Linear mode: the group holds the "choice" placeholder. */
  const LinearChoice := NodeConf(Some(Linear), Some(Yes), Some("choice"), None)

  /** The Preset record written when the Preset screen is set up for a node
      that is not in Preset mode. */
  const PresetDefault := NodeConf(Some(Preset), None, None, Some(map[]))

  /** The Preset record written when Preset is reselected for a node that
      is not in Preset mode: one placeholder item "choice" with value 0. */
  const PresetChoice := NodeConf(Some(Preset), None, None, Some(map["choice" := Int(0)]))

  /** The last Preset item selected, and the node it was selected for. */
  datatype PresetSelect = PresetSelect(node: string, item: string)

  datatype State = State(
    conf: map<string, NodeConf>,
    robot: string,
    controller: string,
    previousMode: string,
    selectedNode: string,
    prevPreset: PresetSelect)

  /** The state when the editor is loaded, before any handler has run. */
  const Initial := State(map[], "", "", "", "", PresetSelect("", ""))

  /** The outcome of a handler: it ran to completion, or it stopped with a
      TypeError, leaving the state it had reached. */
  datatype Step = Done(state: State) | Threw(state: State)

  /** Every node other than `name` has the same record, or the same
      absence of one, in `c` and in `c'`. */
  ghost predicate OthersUnchanged(c: map<string, NodeConf>, c': map<string, NodeConf>, name: string) {
    forall n :: n != name ==> (n in c <==> n in c') && (n in c ==> c'[n] == c[n])
  }

  /** Adds a node to the node list: its record becomes empty, whether or
      not the name was already present. */
  function AddNode(s: State, name: string): (r: State)
    ensures name in r.conf && r.conf[name] == Unset
    ensures r.conf.Keys == s.conf.Keys + {name}
    ensures OthersUnchanged(s.conf, r.conf, name)
    ensures r.(conf := s.conf) == s
  {
    s.(conf := s.conf[name := Unset])
  }

  /** Adds the nodes in the order given; a name listed twice ends up empty
      like any other. */
  function AddNodes(s: State, names: seq<string>): (r: State)
    ensures forall n :: n in names ==> n in r.conf && r.conf[n] == Unset
    ensures forall n :: n !in names ==> (n in r.conf <==> n in s.conf) && (n in s.conf ==> r.conf[n] == s.conf[n])
    ensures r.(conf := s.conf) == s
    decreases |names|
  {
    if |names| == 0 then s else AddNodes(AddNode(s, names[0]), names[1..])
  }

  /** Records the chosen controller and adds every node its configuration
      lists. */
  function ControllerChange(s: State, controller: string, nodes: seq<string>): (r: State)
    ensures r.controller == controller
    ensures r.conf.Keys == s.conf.Keys + set n | n in nodes
    ensures forall n :: n in nodes ==> r.conf[n] == Unset
    ensures forall n :: n in s.conf && n !in nodes ==> r.conf[n] == s.conf[n]
    ensures r.robot == s.robot && r.previousMode == s.previousMode
    ensures r.selectedNode == s.selectedNode && r.prevPreset == s.prevPreset
  {
    AddNodes(s.(controller := controller), nodes)
  }

  /** Records the chosen robot; nothing else changes. */
  function RobotChange(s: State, robot: string): (r: State)
    ensures r.robot == robot
    ensures r.(robot := s.robot) == s
  {
    s.(robot := robot)
  }

  /** The state part of setting up the Linear screen for the selected node:
      a node not in Linear mode gets the Linear default record (one with no
      record gets it too); a node in Linear mode keeps its record. */
  function CreateLinear(s: State): (r: State)
    ensures s.selectedNode in r.conf
    ensures s.selectedNode in s.conf && s.conf[s.selectedNode].mode == Some(Linear)
            ==> r.conf[s.selectedNode] == s.conf[s.selectedNode]
    ensures !(s.selectedNode in s.conf && s.conf[s.selectedNode].mode == Some(Linear))
            ==> r.conf[s.selectedNode] == LinearDefault
    ensures r.conf.Keys == s.conf.Keys + {s.selectedNode}
    ensures OthersUnchanged(s.conf, r.conf, s.selectedNode)
    ensures r.(conf := s.conf) == s
  {
    var record := if s.selectedNode in s.conf then s.conf[s.selectedNode] else Unset;
    var record' := if record.mode != Some(Linear) then LinearDefault else record;
    s.(conf := s.conf[s.selectedNode := record'])
  }

  /** The state part of setting up the Preset screen for the selected node:
      a node not in Preset mode gets the Preset default record, a node in
      Preset mode keeps its record, and a node with no record stops the
      handler. */
  function CreatePreset(s: State): (r: Step)
    ensures r.Done? <==> s.selectedNode in s.conf
    ensures r.state.conf.Keys == s.conf.Keys
    ensures r.Threw? ==> r.state == s
    ensures r.Done? && s.conf[s.selectedNode].mode == Some(Preset)
            ==> r.state == s
    ensures r.Done? && s.conf[s.selectedNode].mode != Some(Preset)
            ==> r.state.conf[s.selectedNode] == PresetDefault
    ensures OthersUnchanged(s.conf, r.state.conf, s.selectedNode)
    ensures r.state.(conf := s.conf) == s
  {
    if s.selectedNode !in s.conf then Threw(s)
    else if s.conf[s.selectedNode].mode != Some(Preset) then
      Done(s.(conf := s.conf[s.selectedNode := PresetDefault]))
    else Done(s)
  }

  /** Whether a record's stored mode equals the drop-down value. */
  predicate Preconfigured(record: NodeConf, value: string) {
    record.mode.Some? && ModeName(record.mode.value) == value
  }

  /** Whether a click with drop-down value `value` sets up a mode screen,
      which resets the record and then reads the robot configuration. */
  predicate SetsUpScreen(s: State, value: string) {
    ModeOf(value).Some? && s.previousMode != value
  }

  /** Clicking node `name`'s button (or changing its drop-down, which does
      the same) while its drop-down shows `value`. `robotLoads` says whether
      reading the chosen robot's configuration succeeds: the file exists,
      parses, and every servo in it has a `groups` array.

      The node becomes the selected one first; a node with no record then
      stops the handler. Otherwise a Linear or Preset value resets the
      record unless it is already in that mode: to the screen-setup default
      when `value` differs from the previous click's value, to the
      placeholder record when it is the same. Only the screen setup reads
      the robot configuration, after its reset; when the read fails the
      handler stops there. Any other value leaves every record alone. On
      completion the previous-mode slot takes `value`. */
  function ButtonClick(s: State, name: string, value: string, robotLoads: bool): (r: Step)
    ensures r.state.selectedNode == name
    ensures r.Done? <==> name in s.conf && (robotLoads || !SetsUpScreen(s, value))
    ensures r.Done? ==> r.state.previousMode == value
    ensures r.Threw? ==> r.state.(conf := s.conf) == s.(selectedNode := name)
    ensures name !in s.conf ==> r.state.conf == s.conf
    ensures r.state.conf.Keys == s.conf.Keys
    ensures OthersUnchanged(s.conf, r.state.conf, name)
    ensures r.state.robot == s.robot && r.state.controller == s.controller
    ensures r.state.prevPreset == s.prevPreset
    ensures ModeOf(value).None? ==> r.state.conf == s.conf
    ensures name in s.conf && value == "Linear" ==>
      r.state.conf[name] == (if s.conf[name].mode == Some(Linear) then s.conf[name]
                             else if s.previousMode != "Linear" then LinearDefault
                             else LinearChoice)
    ensures name in s.conf && value == "Preset" ==>
      r.state.conf[name] == (if s.conf[name].mode == Some(Preset) then s.conf[name]
                             else if s.previousMode != "Preset" then PresetDefault
                             else PresetChoice)
  {
    var s1 := s.(selectedNode := name);
    if name !in s.conf then Threw(s1)
    else
      var preconfigured := Preconfigured(s.conf[name], value);
      var s2 :=
        match ModeOf(value)
        case Some(Linear) =>
          if s.previousMode != value then CreateLinear(s1)
          else if !preconfigured then s1.(conf := s1.conf[name := LinearChoice])
          else s1
        case Some(Preset) =>
          if s.previousMode != value then CreatePreset(s1).state
          else if !preconfigured then s1.(conf := s1.conf[name := PresetChoice])
          else s1
        case None => s1;
      if SetsUpScreen(s, value) && !robotLoads then Threw(s2)
      else Done(s2.(previousMode := value))
  }

  /** The group drop-down of the Linear screen: overwrites the selected
      node's group whatever its mode; a selected node with no record stops
      the handler. */
  function SetGroup(s: State, group: string): (r: Step)
    ensures r.Done? <==> s.selectedNode in s.conf
    ensures r.state.conf.Keys == s.conf.Keys
    ensures r.Threw? ==> r.state == s
    ensures r.Done? ==>
      var before, after := s.conf[s.selectedNode], r.state.conf[s.selectedNode];
      after.group == Some(group) && after.mode == before.mode
      && after.invert == before.invert && after.items == before.items
    ensures OthersUnchanged(s.conf, r.state.conf, s.selectedNode)
    ensures r.state.(conf := s.conf) == s
  {
    if s.selectedNode !in s.conf then Threw(s)
    else
      var record := s.conf[s.selectedNode];
      Done(s.(conf := s.conf[s.selectedNode := record.(group := Some(group))]))
  }

  /** The invert radio pair of the Linear screen: overwrites the selected
      node's invert flag whatever its mode; a selected node with no record
      stops the handler. */
  function SetInvert(s: State, invert: Invert): (r: Step)
    ensures r.Done? <==> s.selectedNode in s.conf
    ensures r.state.conf.Keys == s.conf.Keys
    ensures r.Threw? ==> r.state == s
    ensures r.Done? ==>
      var before, after := s.conf[s.selectedNode], r.state.conf[s.selectedNode];
      after.invert == Some(invert) && after.mode == before.mode
      && after.group == before.group && after.items == before.items
    ensures OthersUnchanged(s.conf, r.state.conf, s.selectedNode)
    ensures r.state.(conf := s.conf) == s
  {
    if s.selectedNode !in s.conf then Threw(s)
    else
      var record := s.conf[s.selectedNode];
      Done(s.(conf := s.conf[s.selectedNode := record.(invert := Some(invert))]))
  }

  /** The item drop-down of the Preset screen. When the last item selected
      was selected for this same node it is removed from the node's items;
      the new item is then recorded with a null value and becomes the last
      item selected. A selected node with no record, or whose record has no
      items map, stops the handler before anything changes. */
  function SelectItem(s: State, item: string): (r: Step)
    ensures r.Done? <==> s.selectedNode in s.conf && s.conf[s.selectedNode].items.Some?
    ensures r.state.conf.Keys == s.conf.Keys
    ensures r.Threw? ==> r.state == s
    ensures r.Done? ==>
      var before, after := s.conf[s.selectedNode], r.state.conf[s.selectedNode];
      && after.items.Some?
      && after.items.value.Keys
         == (if s.prevPreset.node == s.selectedNode
             then before.items.value.Keys - {s.prevPreset.item}
             else before.items.value.Keys) + {item}
      && after.items.value[item] == Null
      && (forall k :: k in after.items.value && k != item ==> after.items.value[k] == before.items.value[k])
      && after.(items := before.items) == before
    ensures r.Done? ==> r.state.prevPreset == PresetSelect(s.selectedNode, item)
    ensures OthersUnchanged(s.conf, r.state.conf, s.selectedNode)
    ensures r.state.robot == s.robot && r.state.controller == s.controller
    ensures r.state.previousMode == s.previousMode && r.state.selectedNode == s.selectedNode
  {
    var node := s.selectedNode;
    if node !in s.conf || s.conf[node].items.None? then Threw(s)
    else
      var record := s.conf[node];
      var items := record.items.value;
      var retracted :=
        if s.prevPreset.node == node && s.prevPreset.item in items
        then items - {s.prevPreset.item}
        else items;
      var record' := record.(items := Some(retracted[item := Null]));
      Done(s.(conf := s.conf[node := record'], prevPreset := PresetSelect(node, item)))
  }
}

=== FILE: profile_properties.dfy ===
/** Properties of the profile editor that relate several handler calls:
    reselecting, switching modes back and forth, and successive Preset item
    selections. */
module ProfileProperties {
  import opened Profile

  /** Clicking the same node with the same drop-down value twice in a row
      changes nothing the second time: the first click leaves the record in
      the clicked mode and the previous-mode slot equal to the value, so the
      second finds it preconfigured. The second click sets up no screen,
      so it does not depend on the robot configuration loading. */
  lemma ReselectIsIdempotent(s: State, name: string, value: string, loadsFirst: bool, loadsSecond: bool)
    requires name in s.conf
    ensures var once := ButtonClick(s, name, value, loadsFirst);
            && (loadsFirst ==> once.Done?)
            && (once.Done? ==> ButtonClick(once.state, name, value, loadsSecond) == once)
  {
  }

  /** Switching a Linear node to Preset and back to Linear discards its
      group and flag: the round trip always ends on the Linear default
      record, which has no group at all, whether or not the second setup
      then manages to read the robot configuration. */
  lemma SwitchBackToLinearResets(s: State, name: string, loads: bool)
    requires name in s.conf
    ensures var there := ButtonClick(s, name, "Preset", true).state;
            var back := ButtonClick(there, name, "Linear", loads);
            (back.Done? <==> loads) && back.state.conf[name] == LinearDefault
  {
  }

  /** A Linear click whose screen setup cannot read the robot configuration
      resets the record but leaves the previous-mode slot as it was. A
      following Linear click on another node that is not in Linear mode
      therefore sets up the screen again and writes the Linear default,
      where after a successful first click it would write the placeholder
      record. */
  lemma FailedSetupKeepsPreviousMode(s: State, a: string, b: string, loads: bool)
    requires a in s.conf && b in s.conf && a != b
    requires s.previousMode != "Linear" && s.conf[b].mode != Some(Linear)
    ensures var failed := ButtonClick(s, a, "Linear", false);
            && failed.Threw?
            && failed.state.previousMode == s.previousMode
            && (s.conf[a].mode != Some(Linear) ==> failed.state.conf[a] == LinearDefault)
            && ButtonClick(failed.state, b, "Linear", loads).state.conf[b] == LinearDefault
    ensures var succeeded := ButtonClick(s, a, "Linear", true);
            ButtonClick(succeeded.state, b, "Linear", loads).state.conf[b] == LinearChoice
  {
  }

  /** Selecting item `a` and then item `b` for the same node retracts `a`:
      the node's items are those it had after the first selection, less
      `a`, plus `b` mapped to null. */
  lemma SecondSelectionRetractsFirst(s: State, a: string, b: string)
    requires s.selectedNode in s.conf && s.conf[s.selectedNode].items.Some?
    ensures var first := SelectItem(s, a).state;
            var second := SelectItem(first, b);
            && second.Done?
            && second.state.conf[s.selectedNode].items.value.Keys
               == first.conf[s.selectedNode].items.value.Keys - {a} + {b}
            && second.state.conf[s.selectedNode].items.value[b] == Null
            && (a != b ==> a !in second.state.conf[s.selectedNode].items.value)
  {
  }

  /** From an empty Preset record, two selections leave exactly the second
      item. */
  lemma TwoSelectionsFromEmpty(s: State, a: string, b: string)
    requires s.selectedNode in s.conf && s.conf[s.selectedNode].items == Some(map[])
    ensures SelectItem(SelectItem(s, a).state, b).state.conf[s.selectedNode].items
            == Some(map[b := Null])
  {
    SecondSelectionRetractsFirst(s, a, b);
    var items := SelectItem(SelectItem(s, a).state, b).state.conf[s.selectedNode].items.value;
    assert items.Keys == {b};
    assert items == map[b := Null];
  }

  /** The last-selection slot is shared by all nodes. Selecting "x" for
      node "A", then "y" for node "B", then "z" for "A" again leaves both
      "x" and "z" in A's items: the slot names B when "z" is selected, so
      "x" is not retracted. */
  lemma SharedSlotKeepsStaleItem()
    ensures
      var s0 := Initial.(conf := map["A" := PresetDefault, "B" := PresetDefault], previousMode := "Preset");
      var s1 := SelectItem(ButtonClick(s0, "A", "Preset", true).state, "x").state;
      var s2 := SelectItem(ButtonClick(s1, "B", "Preset", true).state, "y").state;
      var s3 := SelectItem(ButtonClick(s2, "A", "Preset", true).state, "z").state;
      s3.conf["A"].items == Some(map["x" := Null, "z" := Null])
  {
    var s0 := Initial.(conf := map["A" := PresetDefault, "B" := PresetDefault], previousMode := "Preset");
    var c1 := ButtonClick(s0, "A", "Preset", true).state;
    assert c1.conf == s0.conf && c1.selectedNode == "A";
    var s1 := SelectItem(c1, "x").state;
    assert s1.conf["A"].items == Some(map["x" := Null]);
    assert s1.conf["B"] == PresetDefault;
    var c2 := ButtonClick(s1, "B", "Preset", true).state;
    assert c2.conf == s1.conf && c2.selectedNode == "B";
    var s2 := SelectItem(c2, "y").state;
    assert s2.conf["A"] == s1.conf["A"];
    assert s2.prevPreset == PresetSelect("B", "y");
    var c3 := ButtonClick(s2, "A", "Preset", true).state;
    assert c3.conf == s2.conf && c3.selectedNode == "A";
    var s3 := SelectItem(c3, "z").state;
    var items := s3.conf["A"].items.value;
    assert items.Keys == {"x", "z"};
    assert items == map["x" := Null, "z" := Null];
  }

  /** A whole editing session on one node: add "axis1", choose Linear, pick
      group "legs", switch to Preset, select "servo3", reselect Preset. The
      first Linear record carries no group (the previous-mode slot starts
      empty), the switch to Preset drops the group, and the final
      reselection keeps the selected item. */
  lemma EditingSession()
    ensures
      var s1 := AddNode(Initial, "axis1");
      var s2 := ButtonClick(s1, "axis1", "Linear", true).state;
      var s3 := SetGroup(s2, "legs").state;
      var s4 := ButtonClick(s3, "axis1", "Preset", true).state;
      var s5 := SelectItem(s4, "servo3").state;
      var s6 := ButtonClick(s5, "axis1", "Preset", true);
      && s2.conf["axis1"] == LinearDefault
      && s3.conf["axis1"] == NodeConf(Some(Linear), Some(Yes), Some("legs"), None)
      && s4.conf["axis1"] == PresetDefault
      && s5.conf["axis1"].items == Some(map["servo3" := Null])
      && s6 == Done(s5.(previousMode := "Preset", selectedNode := "axis1"))
      && s6.state.conf["axis1"].items == Some(map["servo3" := Null])
  {
    var s1 := AddNode(Initial, "axis1");
    var s2 := ButtonClick(s1, "axis1", "Linear", true).state;
    var s3 := SetGroup(s2, "legs").state;
    var s4 := ButtonClick(s3, "axis1", "Preset", true).state;
    var s5 := SelectItem(s4, "servo3").state;
    var items := s5.conf["axis1"].items.value;
    assert items.Keys == {"servo3"};
    var s6 := ButtonClick(s5, "axis1", "Preset", true);
    assert s6.state.conf == s5.conf;
  }
}

=== FILE: servo_table.dfy ===
/** The robot-builder's servo table and the robot it is turned into.

    The table is the sequence of its rows: a header row, then one row per
    servo. A row's position equals the index it was created with (rows are
    only appended and removed at the end), so position `i` plays the part
    of the element ids `id-i`, `model-i`, `protocol1-i`, ... of row `i`.
    The row count is the length of the sequence. */
module ServoTable {
  import Lists

  /** Which radio of the protocol pair is checked. */
  datatype Protocol = One | Two

  /** Which radio of the mode pair is checked. */
  datatype ServoMode = Wheel | Joint

  /** The inputs of one servo row. */
  datatype Row = Row(id: int, model: string, protocol: Protocol, mode: ServoMode, min: int, max: int)

  datatype Entry = Header | ServoRow(row: Row)

  type Table = seq<Entry>

  /** The upper end of a servo's position range, and a new row's maximum. */
  const FullRange := 1024

  /** The text of a file name before its first '.' (all of it when there is
      none). */
  function Stem(file: string): (r: string)
    ensures r <= file
    ensures '.' !in r
    ensures |r| < |file| ==> file[|r|] == '.'
    decreases |file|
  {
    if |file| == 0 || file[0] == '.' then "" else [file[0]] + Stem(file[1..])
  }

  /** The options of a row's model selector, from the servo resource
      directory listing: each file name once, in listing order, shown as
      its stem. */
  function ModelOptions(files: seq<string>): (r: seq<string>)
    ensures |r| == |Lists.Dedup(files)| <= |files|
    ensures forall f :: f in files ==> Stem(f) in r
    ensures forall k :: 0 <= k < |r| ==> Lists.Dedup(files)[k] in files && r[k] == Stem(Lists.Dedup(files)[k])
  {
    var unique := Lists.Dedup(files);
    Lists.DedupCorrect(files);
    var r := seq(|unique|, k requires 0 <= k < |unique| => Stem(unique[k]));
    assert forall f :: f in files ==> Stem(f) in r by {
      forall f | f in files
        ensures Stem(f) in r
      {
        assert f in unique;
        var k :| 0 <= k < |unique| && unique[k] == f;
        assert r[k] == Stem(f);
      }
    }
    r
  }

  /** The value a new row's model selector starts on: its first option,
      which is the stem of the first file listed. An empty listing gives a
      selector with no options, whose value is the empty string. */
  function DefaultModel(files: seq<string>): (model: string)
    ensures |files| > 0 ==> model == Stem(files[0])
    ensures |files| == 0 ==> model == ""
  {
    var options := ModelOptions(files);
    if |files| == 0 then ""
    else
      Lists.DedupFirst(files);
      options[0]
  }

  /** The inputs of a newly created row with the given index. */
  function DefaultRow(index: nat, files: seq<string>): (row: Row)
    ensures row.id == index && row.model == DefaultModel(files)
    ensures row.protocol == One && row.mode == Joint
    ensures row.min == 0 && row.max == FullRange
  {
    Row(index, DefaultModel(files), One, Joint, 0, FullRange)
  }

  /** Every position after the first holds a servo row. */
  ghost predicate WellFormed(t: Table) {
    forall p :: 0 < p < |t| ==> t[p].ServoRow?
  }

  /** In every servo row, Wheel is checked exactly when both limits are 0. */
  ghost predicate ModesAgree(t: Table) {
    forall p :: 0 <= p < |t| && t[p].ServoRow? ==>
      (t[p].row.mode == Wheel <==> t[p].row.min == 0 && t[p].row.max == 0)
  }

  /** The table as the page builds it: the header and one new row. */
  function InitialTable(files: seq<string>): (t: Table)
    ensures |t| == 2 && t[0] == Header && t[1] == ServoRow(DefaultRow(1, files))
    ensures WellFormed(t) && ModesAgree(t)
  {
    AddRow([Header], files)
  }

  /** Appends a new row whose index is the current row count. */
  function AddRow(t: Table, files: seq<string>): (r: Table)
    ensures |r| == |t| + 1 && r[..|t|] == t
    ensures r[|t|].ServoRow?
    ensures var row := r[|t|].row;
            row.id == |t| && row.model == DefaultModel(files) && row.protocol == One
            && row.mode == Joint && row.min == 0 && row.max == FullRange
    ensures WellFormed(t) ==> WellFormed(r)
    ensures ModesAgree(t) ==> ModesAgree(r)
  {
    t + [ServoRow(DefaultRow(|t|, files))]
  }

  /** Removes the last row when more than `minRows` rows are present, and
      otherwise leaves the table alone. */
  function RemoveLastRow(t: Table, minRows: nat): (r: Table)
    ensures |t| > minRows ==> |r| == |t| - 1 && r == t[..|t| - 1]
    ensures |t| <= minRows ==> r == t
    ensures |t| >= minRows ==> |r| >= minRows
    ensures WellFormed(t) ==> WellFormed(r)
    ensures ModesAgree(t) ==> ModesAgree(r)
  {
    if |t| > minRows then t[..|t| - 1] else t
  }

  /** With at least one servo row below the header, replaces the last row
      by a new one created at the same index; otherwise does nothing. */
  function ResetLastRow(t: Table, files: seq<string>): (r: Table)
    ensures |r| == |t|
    ensures |t| >= 2 ==> r[..|t| - 1] == t[..|t| - 1] && r[|t| - 1] == ServoRow(DefaultRow(|t| - 1, files))
    ensures |t| < 2 ==> r == t
    ensures WellFormed(t) ==> WellFormed(r)
    ensures ModesAgree(t) ==> ModesAgree(r)
  {
    if |t| >= 2 then AddRow(RemoveLastRow(t, 1), files) else t
  }

  /** Clicking the Wheel or Joint radio of row `index`. The radio's change
      handler runs only when it was not already checked: it then checks it
      and sets the limits to 0 and 0 (Wheel) or 0 and the full range
      (Joint). Nothing else in the table changes. */
  function ChooseMode(t: Table, index: nat, mode: ServoMode): (r: Table)
    requires index < |t| && t[index].ServoRow?
    ensures |r| == |t| && r[index].ServoRow?
    ensures forall p :: 0 <= p < |t| && p != index ==> r[p] == t[p]
    ensures var before, after := t[index].row, r[index].row;
            && after.mode == mode
            && after.id == before.id && after.model == before.model && after.protocol == before.protocol
            && (before.mode != mode ==> after.min == 0 && after.max == (if mode == Wheel then 0 else FullRange))
            && (before.mode == mode ==> after == before)
    ensures WellFormed(t) ==> WellFormed(r)
    ensures ModesAgree(t) ==> ModesAgree(r)
  {
    var row := t[index].row;
    if row.mode == mode then t
    else
      var max := if mode == Wheel then 0 else FullRange;
      t[index := ServoRow(row.(mode := mode, min := 0, max := max))]
  }

  /** The mode a pair of limits selects: Wheel when both are 0. */
  function ModeFor(min: int, max: int): ServoMode {
    if min == 0 && max == 0 then Wheel else Joint
  }

  /** Entering a new minimum in row `index`; the mode follows the limits. */
  function EditMin(t: Table, index: nat, min: int): (r: Table)
    requires index < |t| && t[index].ServoRow?
    ensures |r| == |t| && r[index].ServoRow?
    ensures forall p :: 0 <= p < |t| && p != index ==> r[p] == t[p]
    ensures var before, after := t[index].row, r[index].row;
            && after.min == min && after.max == before.max
            && after.id == before.id && after.model == before.model && after.protocol == before.protocol
            && (after.mode == Wheel <==> min == 0 && before.max == 0)
    ensures WellFormed(t) ==> WellFormed(r)
    ensures ModesAgree(t) ==> ModesAgree(r)
  {
    var row := t[index].row;
    t[index := ServoRow(row.(min := min, mode := ModeFor(min, row.max)))]
  }

  /** Entering a new maximum in row `index`; the mode follows the limits. */
  function EditMax(t: Table, index: nat, max: int): (r: Table)
    requires index < |t| && t[index].ServoRow?
    ensures |r| == |t| && r[index].ServoRow?
    ensures forall p :: 0 <= p < |t| && p != index ==> r[p] == t[p]
    ensures var before, after := t[index].row, r[index].row;
            && after.max == max && after.min == before.min
            && after.id == before.id && after.model == before.model && after.protocol == before.protocol
            && (after.mode == Wheel <==> before.min == 0 && max == 0)
    ensures WellFormed(t) ==> WellFormed(r)
    ensures ModesAgree(t) ==> ModesAgree(r)
  {
    var row := t[index].row;
    t[index := ServoRow(row.(max := max, mode := ModeFor(row.min, max)))]
  }

  /** What the robot records for one servo. */
  datatype ServoSetting = ServoSetting(model: string, id: int, protocol: int, wheel: bool, minPos: int, maxPos: int)

  /** The setting a row produces: protocol 2 when the second protocol
      radio is checked and 1 otherwise, wheel mode when Wheel is checked,
      and the row's model, id and limits. */
  function Setting(row: Row): (s: ServoSetting)
    ensures s.protocol == 1 || s.protocol == 2
    ensures s.protocol == 2 <==> row.protocol == Two
    ensures s.wheel <==> row.mode == Wheel
    ensures s.model == row.model && s.id == row.id
    ensures s.minPos == row.min && s.maxPos == row.max
  {
    ServoSetting(row.model, row.id, if row.protocol == Two then 2 else 1, row.mode == Wheel, row.min, row.max)
  }

  /** No servo row after position `i` has the same id as row `i`. */
  ghost predicate LastWithId(t: Table, i: int)
    requires WellFormed(t) && 0 < i < |t|
  {
    forall j :: i < j < |t| ==> t[j].row.id != t[i].row.id
  }

  /** The robot built from the servo rows at positions 1 to `n` - 1,
      folded in order into a map keyed by id. */
  function RobotOf(t: Table, n: nat): map<int, ServoSetting>
    requires WellFormed(t) && n <= |t|
  {
    if n <= 1 then map[] else RobotOf(t, n - 1)[t[n - 1].row.id := Setting(t[n - 1].row)]
  }

  /** The fold's keys are exactly the ids of the rows it visits. */
  lemma {:induction false} RobotOfKeys(t: Table, n: nat)
    requires WellFormed(t) && n <= |t|
    ensures forall id :: id in RobotOf(t, n) <==> exists i :: 0 < i < n && t[i].row.id == id
  {
    if n > 1 {
      RobotOfKeys(t, n - 1);
    }
  }

  /** Of several visited rows with one id, the fold keeps the last one. */
  lemma {:induction false} RobotOfLastWins(t: Table, n: nat)
    requires WellFormed(t) && n <= |t|
    ensures forall i :: 0 < i < n && (forall j :: i < j < n ==> t[j].row.id != t[i].row.id)
              ==> t[i].row.id in RobotOf(t, n) && RobotOf(t, n)[t[i].row.id] == Setting(t[i].row)
  {
    if n > 1 {
      RobotOfLastWins(t, n - 1);
    }
  }

  /** Builds the robot: the servo rows below the header, in order, keyed by
      id, so that of several rows with one id the last one counts. */
  method CreateRobot(t: Table) returns (servos: map<int, ServoSetting>)
    requires WellFormed(t)
    ensures forall id :: id in servos <==> exists i :: 0 < i < |t| && t[i].row.id == id
    ensures forall i :: 0 < i < |t| && LastWithId(t, i) ==> servos[t[i].row.id] == Setting(t[i].row)
  {
    servos := map[];
    if |t| == 0 {
      return;
    }
    var i := 1;
    while i < |t|
      invariant 1 <= i <= |t|
      invariant servos == RobotOf(t, i)
    {
      var row := t[i].row;
      servos := servos[row.id := Setting(row)];
      assert servos == RobotOf(t, i + 1);
      i := i + 1;
    }
    RobotOfKeys(t, |t|);
    RobotOfLastWins(t, |t|);
  }
}

=== FILE: servo_table_properties.dfy ===
/** Properties of the servo table over whole editing sessions: the table
    keeps its shape and the mode radios keep agreeing with the limits,
    whatever the user does, and removing undoes adding. */
module ServoTableProperties {
  import opened ServoTable

  /** One user action on the table. `Choose`, `SetMin` and `SetMax` act on
      the row at `index`; when there is no servo row there, the control
      does not exist and the action does nothing. */
  datatype Action =
    | Add(files: seq<string>)
    | Remove(minRows: nat)
    | Reset(files: seq<string>)
    | Choose(index: nat, mode: ServoMode)
    | SetMin(index: nat, min: int)
    | SetMax(index: nat, max: int)

  function Apply(t: Table, a: Action): Table {
    match a
    case Add(files) => AddRow(t, files)
    case Remove(minRows) => RemoveLastRow(t, minRows)
    case Reset(files) => ResetLastRow(t, files)
    case Choose(index, mode) => if index < |t| && t[index].ServoRow? then ChooseMode(t, index, mode) else t
    case SetMin(index, min) => if index < |t| && t[index].ServoRow? then EditMin(t, index, min) else t
    case SetMax(index, max) => if index < |t| && t[index].ServoRow? then EditMax(t, index, max) else t
  }

  function ApplyAll(t: Table, actions: seq<Action>): Table
    decreases |actions|
  {
    if |actions| == 0 then t else ApplyAll(Apply(t, actions[0]), actions[1..])
  }

  /** One action keeps both table invariants. */
  lemma ActionKeepsInvariants(t: Table, a: Action)
    requires WellFormed(t) && ModesAgree(t)
    ensures WellFormed(Apply(t, a)) && ModesAgree(Apply(t, a))
  {
  }

  /** Every table the page can reach keeps servo rows below position 0 and
      has Wheel checked in exactly the rows whose limits are both 0. */
  lemma {:induction false} SessionKeepsInvariants(t: Table, actions: seq<Action>)
    requires WellFormed(t) && ModesAgree(t)
    ensures WellFormed(ApplyAll(t, actions)) && ModesAgree(ApplyAll(t, actions))
    decreases |actions|
  {
    if |actions| > 0 {
      ActionKeepsInvariants(t, actions[0]);
      SessionKeepsInvariants(Apply(t, actions[0]), actions[1..]);
    }
  }

  /** In a table the page reached, the robot puts a servo in wheel mode
      exactly when both of its row's limits are 0. */
  lemma WheelExactlyAtZeroLimits(files: seq<string>, actions: seq<Action>, i: nat)
    requires var t := ApplyAll(InitialTable(files), actions); 0 < i < |t|
    ensures var t := ApplyAll(InitialTable(files), actions);
            t[i].ServoRow? && (Setting(t[i].row).wheel <==> t[i].row.min == 0 && t[i].row.max == 0)
  {
    SessionKeepsInvariants(InitialTable(files), actions);
  }

  /** Removing the last row right after adding one restores the table,
      provided the table already had at least `minRows` rows. */
  lemma RemoveUndoesAdd(t: Table, files: seq<string>, minRows: nat)
    requires |t| >= minRows
    ensures RemoveLastRow(AddRow(t, files), minRows) == t
  {
  }

  /** Removing with a floor of `minRows` never takes a table that has at
      least that many rows below it, however often it is repeated. */
  lemma {:induction false} RemovalsKeepFloor(t: Table, minRows: nat, times: nat)
    requires |t| >= minRows
    ensures |ApplyAll(t, seq(times, _ => Remove(minRows)))| == if |t| - times > minRows then |t| - times else minRows
    decreases times
  {
    if times > 0 {
      var actions := seq(times, _ => Remove(minRows));
      assert actions[0] == Remove(minRows);
      assert actions[1..] == seq(times - 1, _ => Remove(minRows));
      RemovalsKeepFloor(RemoveLastRow(t, minRows), minRows, times - 1);
    }
  }
}
